=== FILE: README.md ===
# u-boot-lcd-config.rb in Dafny

`u-boot-lcd-config.rb` walks a tree of Allwinner FEX board descriptions
(`sys_config/<soc>/<board>.fex`) and, for every board with a parallel RGB panel,
prints the U-Boot settings for that panel: the `CONFIG_VIDEO_LCD_MODE` timing
string and the power, backlight-enable and backlight-PWM pins. It also prints
warnings about fields it cannot use.

This project models the part of the script that derives those settings:

- **Fex** (`fex.dfy`) models `parse_fex_section`, the FEX section reader. It is
  built from the two regular expressions the reader applies to every line:
  - `HeaderName` sees the `[section]` header of a line.
  - `SplitLine` / `Classify` see the `key = value` entry of a line, typing the value
    as an integer (`to_i` of a digit run) or as stripped text.
  - `ParseFexSection` is the scan over the lines: the last line for a key wins, and
    blank values are deleted at the end.
- **Gpio** (`gpio.dfy`) models `decode_gpio`. It finds the leftmost
  `port:P<bank><digits><` in a pin descriptor and names the pin, for example
  `port:PB07<1><0>` gives `PB7`.
- **LcdMode** (`lcd_mode.dfy`) models `get_config_video_lcd_mode`:
  - the chip-family table that gives the divisor for `lcd_vt`, or aborts the run;
  - the arithmetic that turns the `[lcd0_para]` fields into the mode.

  The mode is a record of its values, not the printed string.
- **Board** (`board.dfy`) models the main loop:
  - the eligibility filter (`lcd_used == 1`, `lcd_if == 0`, `lcd_frm == 1`);
  - the header and mode lines;
  - the gated power and backlight-enable pins;
  - the PWM contradiction warning;
  - the backlight PWM pin, taken directly from `lcd_pwm` or, as a fallback, from the
    `pwm_positive` field of a `[pwmN_para]` section;
  - the warnings for the six legacy GPIO fields;
  - the abort on an unknown chip family, which ends the whole run.

  Each printed line is an `Item`. One board's output is a list of items, and a
  run is a `Report`: `Done` with every item, or `Aborted` with the items printed
  before the abort and the unknown family.
- **Text** (`text.dfy`) holds Ruby's character classes (`\s`, `\d`, `[A-Z]`),
  `String#strip`, `to_i` of a digit run and `Integer#to_s`. **Common**
  (`common.dfy`) holds `Option` and `Result`.

A FEX file is a sequence of lines without their line terminators. A board is read
into a `Panel` holding two sections:

- its `[lcd0_para]` section;
- the `[pwmN_para]` section that the PWM fallback would read. This section is empty
  when the fallback is not taken.

Reading prints nothing, so the model reads both sections before the board's turn.

Ruby's `nil` is `None`. A field value is `I(n)` or `S(text)`. Every Ruby
comparison in the script is written out with its nil behaviour:

- `para[flag] != 0` holds for an absent flag, so an absent usage flag means "used".
- `para[flag] == 1` fails for an absent flag.

A Ruby exception is not an outcome the model produces. The `requires` clauses
`HasTimingFields`, `PwmChannelIsInt`, `Processable` and `Runnable` exclude the
inputs on which the script raises, and also a text clock containing `%`, which
the mode line's `sprintf` either rejects or rewrites. `Runnable` only constrains
the boards the run actually reaches: no board after an abort is constrained.

## Model

| member | source | states |
|---|---|---|
| `Text.Strip` | u-boot-lcd-config.rb:27 | The stored text is a contiguous middle part of the raw value. Only blanks and NULs lie outside it, and it neither starts nor ends with one. |
| `Text.StripOfStripped` | u-boot-lcd-config.rb:27 | Text that already has no blank or NUL at either end is left unchanged by strip. |
| `Text.NatToStringRoundTrip` | u-boot-lcd-config.rb:60 | Reading back the decimal text of a number with `to_i` gives the number. |
| `Text.CanonicalNumeralRoundTrip` | u-boot-lcd-config.rb:60 | A digit string without superfluous leading zeros is exactly the text `to_s` prints for its value. |
| `Text.LeadingZerosIgnored` | u-boot-lcd-config.rb:28 | Leading zeros do not change the value `to_i` gives a digit run. |
| `Text.IntToString` | u-boot-lcd-config.rb:148 | The decimal text of an integer starts with '-' exactly when the integer is negative, and is the canonical numeral otherwise. |
| `Fex.HeaderNameShape` | u-boot-lcd-config.rb:25 | A line opens a section exactly when it starts with '[' and has a ']' later. The section name is the text before the first ']', so it contains no ']'. |
| `Fex.KeyEnd` | u-boot-lcd-config.rb:27 | The key of `^(\S+)\s*\=` ends at the LAST position that ends a blank-free prefix followed by optional blanks and '=' (greedy matching). There is none exactly when no position qualifies. |
| `Fex.SplitLine` | u-boot-lcd-config.rb:27 | A line splits exactly when it has the key/value shape. The line is then the key, blanks, '=', blanks and the raw value, and the raw value does not start with a blank. |
| `Fex.Classify` | u-boot-lcd-config.rb:27-28 | A value is stored as an integer exactly when it is a digit run followed only by blanks, and then it is the run's value. Any other value is stored as its stripped text. |
| `Fex.ClassifyDigits` | u-boot-lcd-config.rb:28 | A number written with any leading zeros and trailing blanks is stored as that number. |
| `Fex.LineEntryShape` | u-boot-lcd-config.rb:27 | A line gives an entry exactly when it has the key/value shape. Its key is a non-empty word without blanks, and its value is a non-negative integer or stripped text. |
| `Fex.FormatLineRoundTrip` | u-boot-lcd-config.rb:27-28 | Reading a written `key = value` line gives back the key and the value: an integer as the same integer, and text that does not look like a number as the same text. |
| `Fex.ParseFexSection` | u-boot-lcd-config.rb:21-32 | No value in the result is "" or the two-character `""`. Every value is a non-negative integer or stripped text. |
| `Fex.CollectIsLastWins` | u-boot-lcd-config.rb:24-29 | After the scan, each key maps to the value of the LAST line inside the section naming it. Keys no such line names are absent. |
| `Fex.ParseFexSectionIsLastWins` | u-boot-lcd-config.rb:21-32 | A key is in the result exactly when the last line naming it inside the section has a non-blank value, and then it maps to that value. |
| `Fex.SectionAfterIsLastHeader` | u-boot-lcd-config.rb:23-26 | The current section is the name in the last header read so far, or "" before any header. |
| `Fex.AbsentSectionIsEmpty` | u-boot-lcd-config.rb:21-32 | A non-empty section name that no header line names reads as the empty hash, not as nil. The empty name is excluded: the scan starts in section "", so lines before the first header belong to it. |
| `Fex.WrittenHeaderReads` | u-boot-lcd-config.rb:25-27 | A written `[name]` line, for a name with no ']' and no '=', opens section `name` and carries no entry. A name with '=' would also give the header line a `key = value` entry, since line 27 runs on header lines too. |
| `Fex.WrittenSectionRoundTrip` | u-boot-lcd-config.rb:21-32 | A file written as a header and one `key = value` line reads back as exactly that one entry. |
| `Gpio.FirstMatch` | u-boot-lcd-config.rb:59 | Gives the leftmost position where `port:P[A-Z]\d+<` matches, or none when it matches nowhere. |
| `Gpio.MatchedPin` | u-boot-lcd-config.rb:60 | The name built from a match is the two matched port letters followed by a canonical decimal numeral whose value is that of the matched digit run, so leading zeros are dropped. |
| `Gpio.DecodeGpio` | u-boot-lcd-config.rb:58-61 | The result is nil exactly when the pattern matches nowhere in the value. Otherwise it is the pin named by the leftmost match, wherever in the value that match starts. |
| `Gpio.DecodeDescriptor` | u-boot-lcd-config.rb:58-61 | A descriptor `port:P<bank><number><...` decodes to that pin's name, with any leading zeros on the number. |
| `Gpio.PinNameInjective` | u-boot-lcd-config.rb:60 | Different pins never get the same name. |
| `Gpio.NoPortNoPin` | u-boot-lcd-config.rb:59 | A value without `port:` decodes to nil. |
| `Gpio.DecodeExample` | u-boot-lcd-config.rb:58-61 | `port:PB007<1><0>` decodes to `PB7`. |
| `LcdMode.VtDivisor` | u-boot-lcd-config.rb:35-39 | Every family in the table has divisor 1 or 2. |
| `LcdMode.TimesThousand` | u-boot-lcd-config.rb:44 | An integer clock is scaled by 1000 and stays an integer. A non-empty text clock becomes 1000 copies of the text side by side: the result is a thousand times as long, and position `i` holds character `i mod n` of the n-character text. |
| `LcdMode.GetConfigVideoLcdMode` | u-boot-lcd-config.rb:34-56 | The derivation fails exactly for a family not in the table, and the failure names that family. Otherwise both sync widths are at least 1, the depth is 18, sync is 3 and vmode is 0. |
| `LcdMode.ModeAccountsForFrame` | u-boot-lcd-config.rb:41-50 | The mode reconstructs the panel's frame. Left margin plus hsync is `lcd_hbp`, and width, margins and hsync add up to `lcd_ht`. Vertically the same holds against `lcd_vbp` and `lcd_vt` divided by the divisor. Each sync width is its field raised to at least 1, and the clock is `lcd_dclk_freq * 1000` as `TimesThousand` gives it: an integer times 1000, text repeated 1000 times. |
| `LcdMode.ModeExample` | u-boot-lcd-config.rb:34-56 | An 800x480 a10 panel with `lcd_ht` 1056 and `lcd_vt` 525 gets margins 45/210/22/-241 and a 33000 kHz clock. |
| `Board.GatedPin` | u-boot-lcd-config.rb:106-114 | A gated field produces at most one item: a pin line of its own kind, or a warning about its own field. |
| `Board.PowerPinResolution` | u-boot-lcd-config.rb:106-114 | The power pin line is printed exactly when `lcd_power_used` is not 0 and `lcd_power` decodes to that pin. The warning is printed exactly when the flag is not 0 and `lcd_power` is present but does not decode, and it carries the raw value. |
| `Board.BacklightEnableResolution` | u-boot-lcd-config.rb:118-126 | The same both-way rule holds for `lcd_bl_en_used` and `lcd_bl_en`. |
| `Board.AbsentPowerFlagMeansUsed` | u-boot-lcd-config.rb:106 | With no `lcd_power_used` flag, a present `lcd_power` is always reported, as a pin or as a warning. |
| `Board.ContradictionWarning` | u-boot-lcd-config.rb:130-134 | The contradiction warning is printed exactly when `lcd_pwm_used` and `lcd_pwm_not_used` are both present and equal. |
| `Board.PwmPinItems` | u-boot-lcd-config.rb:136-163 | The PWM resolution prints only backlight-PWM pin lines, section notes, and warnings about `lcd_pwm` or `pwm_positive`. |
| `Board.PwmPinResolution` | u-boot-lcd-config.rb:136-163 | The backlight PWM pin is printed exactly when one of two things holds: the direct path applies and `lcd_pwm` decodes to it, or the fallback applies and the section's `pwm_positive` decodes to it. The two paths never both apply. |
| `Board.PwmPathsExclusive` | u-boot-lcd-config.rb:136-163 | A "taken from section" note is printed exactly on the fallback path. The fallback never warns about `lcd_pwm`, and the direct path never warns about `pwm_positive`. |
| `Board.PwmNotUsedSilencesPwm` | u-boot-lcd-config.rb:136-147 | `lcd_pwm_not_used = 1` suppresses every PWM pin line, section note and PWM decode warning. |
| `Board.MissingPwmSectionReportsNil` | u-boot-lcd-config.rb:148-162 | When the fallback names a section the file lacks, the note naming that section is still printed, along with a "could not decode" warning for a nil `pwm_positive`. No PWM pin is printed, and the "no section found" branch is never reached. |
| `Board.EachPinAtMostOnce` | u-boot-lcd-config.rb:104-163 | Each of the power, backlight-enable and backlight-PWM pin lines is printed at most once per board. |
| `Board.LegacyItems` | u-boot-lcd-config.rb:167-172 | A warning is produced for each listed field present in the section, carrying its value, and for no other field. |
| `Board.LegacyWarnings` | u-boot-lcd-config.rb:167-172 | A board's output warns about `(field, value)` exactly when `field` is one of the six legacy GPIO fields and the section holds `value` for it. |
| `Board.ProcessBoard` | u-boot-lcd-config.rb:81-175 | An ineligible board prints nothing. An eligible board of an unknown family prints only its header and aborts. Any other eligible board prints its header, the mode `GetConfigVideoLcdMode` derives, the items of the peripheral resolution and a closing blank line. |
| `Board.BoardPrintsPeripherals` | u-boot-lcd-config.rb:97-174 | Apart from its header, mode line and closing blank line, a processed board prints exactly the items of the peripheral resolution. So the pin, PWM and legacy-GPIO lemmas describe what the board prints. |
| `Board.BoardPrintsEachPinAtMostOnce` | u-boot-lcd-config.rb:97-174 | A board's block of output holds at most one power, one backlight-enable and one backlight-PWM pin line. |
| `Board.Run` | u-boot-lcd-config.rb:76-176 | The run aborts exactly when some board it reaches is eligible with an unknown family. The abort names the family of the FIRST such board. |
| `Board.RunFiles` | u-boot-lcd-config.rb:76-176 | Run over candidate files whose sections are read as lines 81 and 148-149 read them. It aborts exactly when some file's `[lcd0_para]` passes the filters with an unknown family, and names the first such file's family. When no file passes the filters, nothing is printed. |
| `Board.NothingEligibleNothingPrinted` | u-boot-lcd-config.rb:82-95 | A run in which no board passes the filters prints nothing. |
| `Board.RunSplits` | u-boot-lcd-config.rb:76-176 | Boards are processed independently. Running over `a + b` is running over `a`, then, unless that aborted, over `b`, with the outputs concatenated. |

## Left out

- The file search of lines 74-80 is not modelled: `Find.find` over `sys_config` and the path pattern that yields the family and board name. `RunFiles` takes the candidate files, already split into family, board name and lines, in the order the traversal yields them; each is read into a `Panel` by `ReadPanel` and the panels go through `Run`.
- File access is not modelled: opening and reading a file, and I/O errors. A file is a sequence of lines without terminators, and a trailing newline would change no match.
- Text rendering is not modelled: `printf`, `sprintf` of the mode string and Ruby's `to_s` of values in warnings. Output is a list of `Item`s carrying the same data.
- `decode_lcd_if` (lines 63-72) is only referenced from commented-out code, so it is not modelled.
- The abort at line 38 is modelled as `Aborted` with the unknown family. Its message text on standard error and the process exit status are not modelled.
- Ruby exceptions are not modelled as outcomes. `HasTimingFields`, `PwmChannelIsInt`, `Processable` and `Runnable` exclude the inputs that raise:
  - arithmetic on nil or text;
  - `max` of 1 and nil or text;
  - `%d` of nil;
  - a text `lcd_dclk_freq` containing `%`. Line 52 splices the repeated text into the `sprintf` format, so `%` starts a directive: most raise, and some, such as `%%`, are rewritten instead. `HasTimingFields` excludes every such text, including the rewritten ones.
- Board.PwmPinItems: requires, through `PwmChannelIsInt`, an integer `lcd_pwm_ch` on the fallback path. Ruby's `%d` also converts text that reads as an integer literal (such as `-1` or `0x1`). The model treats such text like other text, as an exception.
- Board.DecodeValue: an integer field value never decodes. This is the behaviour of Ruby versions in which `Integer#=~` returns nil; later versions raise instead.
- Text.Strip: removes NUL at both ends, as Ruby 2.6 and later do. Older versions kept a leading NUL.
- Character encodings are not modelled. Strings are sequences of characters, and an invalid byte sequence that makes Ruby's regular expressions raise is not represented.

=== FILE: board.dfy ===
/**
 The main block of u-boot-lcd-config.rb for one board and for a whole scan: the
 eligibility filter on `[lcd0_para]`, the timing line, the resolution of the power,
 backlight-enable and backlight-PWM pins (with the fallback to a `[pwmN_para]`
 section), the warnings about legacy GPIO fields, and the abort on an unknown chip
 family. Output is a list of items rather than printed text.
 */
module Board {
  import opened Common
  import opened Text
  import opened Fex
  import opened Gpio
  import opened LcdMode

  /** `para[key]`: the value, or nil. */
  function Get(para: Para, key: string): (r: Option<Value>)
    ensures r.Some? <==> key in para
    ensures r.Some? ==> r.value == para[key]
  {
    if key in para then Some(para[key]) else None
  }

  /** Ruby `para[flag] != 0`: an absent flag (nil) and any string also differ from 0. */
  predicate NotZero(para: Para, flag: string) {
    Get(para, flag) != Some(I(0))
  }

  /** Ruby `para[flag] == n`: only the integer `n` itself is equal. */
  predicate Is(para: Para, flag: string, n: int) {
    Get(para, flag) == Some(I(n))
  }

  /** The filters of the main loop: LCD in use, HV (parallel RGB) interface, and
      `lcd_frm == 1`. An absent field fails its test. */
  predicate Eligible(para: Para) {
    Is(para, "lcd_used", 1) && Is(para, "lcd_if", 0) && Is(para, "lcd_frm", 1)
  }

  datatype PinKind = Power | BacklightEnable | BacklightPwm

  /** The fields holding a pin descriptor, named in the "could not decode" warning. */
  datatype PinField = LcdPower | LcdBlEn | LcdPwm | PwmPositive

  /** The key of a pin field in its section. */
  function Key(f: PinField): string {
    match f
    case LcdPower => "lcd_power"
    case LcdBlEn => "lcd_bl_en"
    case LcdPwm => "lcd_pwm"
    case PwmPositive => "pwm_positive"
  }

  /** One line of a board's block of output. */
  datatype Item =
    | BoardHeader(board: string, soc: string)          // `=== board (soc) ===`
    | ModeLine(mode: Mode)                             // `CONFIG_VIDEO_LCD_MODE="..."`
    | PinLine(kind: PinKind, pin: string)              // `CONFIG_VIDEO_LCD_POWER="PH8"` and the like
    | Undecodable(field: PinField, raw: Option<Value>) // `# warning: could not decode 'field' (raw)`
    | PwmContradiction                                 // contradicting `lcd_pwm_used` / `lcd_pwm_not_used`
    | PwmFromSection(section: string)                  // `'lcd_pwm' gpio extracted from 'section'`
    | LegacyGpio(key: string, value: Value)            // `# warning: 'key' = 'value'`
    | BlankLine

  /** `decode_gpio` on a field value: nil and integers never match. */
  function DecodeValue(v: Option<Value>): (r: Option<string>)
    ensures r.Some? ==> v.Some? && v.value.S? && IsPinName(r.value)
    ensures v.Some? && v.value.S? ==> r == DecodeGpio(v.value.s)
  {
    match v
    case Some(S(s)) => DecodeGpio(s)
    case _ => None
  }

  /** The pin line for a decodable field, else the "could not decode" warning. */
  function PinReport(kind: PinKind, field: PinField, v: Option<Value>): (it: Item)
    ensures it.PinLine? <==> DecodeValue(v).Some?
    ensures it.PinLine? ==> it.kind == kind && it.pin == DecodeValue(v).value
    ensures !it.PinLine? ==> it == Undecodable(field, v)
  {
    match DecodeValue(v)
    case Some(p) => PinLine(kind, p)
    case None => Undecodable(field, v)
  }

  /** The power and backlight-enable pattern: report `field` when it is present and its
      usage flag is not 0. */
  function GatedPin(para: Para, flag: string, field: PinField, kind: PinKind): (r: seq<Item>)
    ensures |r| <= 1
    ensures forall it :: it in r ==> (it.PinLine? && it.kind == kind) || (it.Undecodable? && it.field == field)
  {
    if NotZero(para, flag) && Key(field) in para then [PinReport(kind, field, Get(para, Key(field)))] else []
  }

  /** The direct PWM path: PWM not switched off, not declared unused, and a pin given. */
  predicate DirectPwm(para: Para) {
    NotZero(para, "lcd_pwm_used") && !Is(para, "lcd_pwm_not_used", 1) && "lcd_pwm" in para
  }

  /** The fallback PWM path: PWM used (exactly 1), not declared unused, and no pin given. */
  predicate FallbackPwm(para: Para) {
    Is(para, "lcd_pwm_used", 1) && !Is(para, "lcd_pwm_not_used", 1) && "lcd_pwm" !in para
  }

  /** Both PWM flags present and equal. */
  predicate Contradicting(para: Para) {
    "lcd_pwm_used" in para && "lcd_pwm_not_used" in para && para["lcd_pwm_used"] == para["lcd_pwm_not_used"]
  }

  /** The fallback prints `lcd_pwm_ch` with `%d`, which raises on nil and on text. */
  predicate PwmChannelIsInt(para: Para) {
    FallbackPwm(para) ==> HasInt(para, "lcd_pwm_ch")
  }

  /** `sprintf("pwm%d_para", ch)`. */
  function PwmSectionName(ch: int): string {
    "pwm" + IntToString(ch) + "_para"
  }

  /** The contradiction check on the two PWM flags. */
  function ContradictionItems(para: Para): (r: seq<Item>)
    ensures forall it :: it in r ==> it == PwmContradiction
  {
    if Contradicting(para) then [PwmContradiction] else []
  }

  /** The `[pwmN_para]` section that the fallback reads, `N` being `lcd_pwm_ch`; the
      other paths read nothing. */
  function PwmPara(lines: seq<string>, para: Para): Para {
    if FallbackPwm(para) && HasInt(para, "lcd_pwm_ch") then
      ParseFexSection(lines, PwmSectionName(para["lcd_pwm_ch"].n))
    else map[]
  }

  /** The backlight PWM resolution, `pwm` being the section `PwmPara` reads. The
      fallback always reports the section it read:
      an absent section reads as the empty hash, which Ruby treats as true, so the
      "no section found" warning can never be printed and an absent section shows up
      as an undecodable nil `pwm_positive`. */
  function PwmPinItems(para: Para, pwm: Para): (r: seq<Item>)
    requires PwmChannelIsInt(para)
    ensures forall it :: it in r ==>
              || it.PwmFromSection?
              || (it.PinLine? && it.kind == BacklightPwm)
              || (it.Undecodable? && (it.field == LcdPwm || it.field == PwmPositive))
  {
    if DirectPwm(para) then
      [PinReport(BacklightPwm, LcdPwm, Get(para, "lcd_pwm"))]
    else if FallbackPwm(para) then
      [PwmFromSection(PwmSectionName(para["lcd_pwm_ch"].n)),
       PinReport(BacklightPwm, PwmPositive, Get(pwm, "pwm_positive"))]
    else []
  }

  /** The six legacy GPIO fields that are reported but never decoded. */
  const LegacyFields: seq<string> :=
    ["lcd_gpio_0", "lcd_gpio_1", "lcd_gpio_2", "lcd_gpio_3", "lcd_gpio_scl", "lcd_gpio_sda"]

  /** A warning for each of `fields` present in the panel section, in list order. */
  function LegacyItems(para: Para, fields: seq<string>): (r: seq<Item>)
    ensures forall it :: it in r ==> it.LegacyGpio? && it.key in fields && it.key in para
                                      && it.value == para[it.key]
    ensures forall f :: f in fields && f in para ==> LegacyGpio(f, para[f]) in r
    ensures |r| <= |fields|
  {
    if |fields| == 0 then []
    else
      (if fields[0] in para then [LegacyGpio(fields[0], para[fields[0]])] else [])
      + LegacyItems(para, fields[1..])
  }

  /** Everything printed after the mode line: power, backlight enable, backlight PWM,
      legacy GPIO warnings. */
  function Peripherals(para: Para, pwm: Para): seq<Item>
    requires PwmChannelIsInt(para)
  {
    GatedPin(para, "lcd_power_used", LcdPower, Power)
    + GatedPin(para, "lcd_bl_en_used", LcdBlEn, BacklightEnable)
    + ContradictionItems(para)
    + PwmPinItems(para, pwm)
    + LegacyItems(para, LegacyFields)
  }

  // ---------------------------------------------------------------- boards

  /** A candidate file: its chip family and board name (from the path) and its lines. */
  datatype BoardFile = BoardFile(soc: string, name: string, lines: seq<string>)

  /** What the main block reads from a candidate file: the `[lcd0_para]` section and the
      `[pwmN_para]` section of the PWM fallback (empty when the fallback is not taken). */
  datatype Panel = Panel(soc: string, name: string, para: Para, pwm: Para)

  /** Reading the two sections of `b`. Reading has no effect on the output, so the
      sections may be read before the board's turn in the loop. */
  function ReadPanel(b: BoardFile): Panel {
    var para := ParseFexSection(b.lines, "lcd0_para");
    Panel(b.soc, b.name, para, PwmPara(b.lines, para))
  }

  /** The output so far, and whether the run stopped on an unknown family. */
  datatype Report = Done(items: seq<Item>) | Aborted(items: seq<Item>, soc: string)

  /** The board passes the filters and its family has no divisor. */
  predicate Aborts(b: Panel) {
    Eligible(b.para) && VtDivisor(b.soc).None?
  }

  /** The board can be processed without a Ruby exception. */
  predicate Processable(b: Panel) {
    Eligible(b.para) && VtDivisor(b.soc).Some? ==> HasTimingFields(b.para) && PwmChannelIsInt(b.para)
  }

  /** One iteration of the main loop. */
  function ProcessBoard(b: Panel): (r: Report)
    requires Processable(b)
    ensures r.Aborted? <==> Aborts(b)
    ensures r.items == [] <==> !Eligible(b.para)
    ensures r.Aborted? ==> r.items == [BoardHeader(b.name, b.soc)] && r.soc == b.soc
    ensures r.Done? && r.items != [] ==>
              && |r.items| >= 3
              && r.items[0] == BoardHeader(b.name, b.soc)
              && r.items[1].ModeLine?
              && r.items[|r.items| - 1] == BlankLine
    ensures r.Done? && r.items != [] ==>
              r.items == [BoardHeader(b.name, b.soc), ModeLine(GetConfigVideoLcdMode(b.para, b.soc).value)]
                         + Peripherals(b.para, b.pwm) + [BlankLine]
  {
    if !Eligible(b.para) then Done([])
    else match GetConfigVideoLcdMode(b.para, b.soc)
      case Failure(soc) => Aborted([BoardHeader(b.name, b.soc)], soc)
      case Success(m) =>
        var items := [BoardHeader(b.name, b.soc), ModeLine(m)] + Peripherals(b.para, b.pwm) + [BlankLine];
        assert items[1] == ModeLine(m) && items[|items| - 1] == BlankLine;
        Done(items)
  }

  /** Every board the run reaches can be processed (boards after an abort are never read). */
  predicate Runnable(bs: seq<Panel>)
    decreases |bs|
  {
    |bs| == 0 || (Processable(bs[0]) && (Aborts(bs[0]) || Runnable(bs[1..])))
  }

  /** Output `first`, then whatever `rest` reports. */
  function Then(first: seq<Item>, rest: Report): Report {
    match rest
    case Done(it) => Done(first + it)
    case Aborted(it, soc) => Aborted(first + it, soc)
  }

  /** The main loop over the candidate files, in the order the traversal yields them. */
  function Run(bs: seq<Panel>): (r: Report)
    requires Runnable(bs)
    ensures r.Aborted? <==> exists i :: 0 <= i < |bs| && Aborts(bs[i])
    ensures r.Aborted? ==> exists i :: && 0 <= i < |bs| && Aborts(bs[i])
                                       && (forall j :: 0 <= j < i ==> !Aborts(bs[j]))
                                       && r.soc == bs[i].soc
    decreases |bs|
  {
    if |bs| == 0 then Done([])
    else match ProcessBoard(bs[0])
      case Aborted(it, soc) => Aborted(it, soc)
      case Done(it) =>
        var rest := Run(bs[1..]);
        assert forall i :: 1 <= i < |bs| ==> bs[i] == bs[1..][i - 1];
        Then(it, rest)
  }

  /** The candidate files read into panels, in traversal order. */
  function ReadPanels(fs: seq<BoardFile>): (ps: seq<Panel>)
    ensures |ps| == |fs|
    ensures forall i :: 0 <= i < |fs| ==> ps[i] == ReadPanel(fs[i])
  {
    seq(|fs|, i requires 0 <= i < |fs| => ReadPanel(fs[i]))
  }

  /** The file's `[lcd0_para]` section passes the filters and its family has no divisor. */
  predicate AbortsFile(f: BoardFile) {
    Eligible(ParseFexSection(f.lines, "lcd0_para")) && VtDivisor(f.soc).None?
  }

  /** The main loop over the candidate files: each file's sections are read and the board
      is processed, until a board of an unknown family aborts the run. */
  function RunFiles(fs: seq<BoardFile>): (r: Report)
    requires Runnable(ReadPanels(fs))
    ensures r.Aborted? <==> exists i :: 0 <= i < |fs| && AbortsFile(fs[i])
    ensures r.Aborted? ==> exists i :: && 0 <= i < |fs| && AbortsFile(fs[i])
                                       && (forall j :: 0 <= j < i ==> !AbortsFile(fs[j]))
                                       && r.soc == fs[i].soc
    ensures (forall i :: 0 <= i < |fs| ==> !Eligible(ParseFexSection(fs[i].lines, "lcd0_para")))
              ==> r == Done([])
  {
    var ps := ReadPanels(fs);
    assert forall i :: 0 <= i < |fs| ==> (Aborts(ps[i]) <==> AbortsFile(fs[i]));
    NothingEligibleNothingPrinted(ps);
    Run(ps)
  }

  // ------------------------------------------------------------ properties

  /** A run in which no board passes the filters prints nothing. */
  lemma {:induction false} NothingEligibleNothingPrinted(bs: seq<Panel>)
    requires Runnable(bs)
    ensures (forall i :: 0 <= i < |bs| ==> !Eligible(bs[i].para)) ==> Run(bs) == Done([])
    decreases |bs|
  {
    if |bs| > 0 && forall i :: 0 <= i < |bs| ==> !Eligible(bs[i].para) {
      RunStep(bs);
      assert !Eligible(bs[0].para);
      NothingEligibleNothingPrinted(bs[1..]);
      assert forall i :: 0 <= i < |bs| - 1 ==> bs[1..][i] == bs[i + 1];
    }
  }

  /** Number of pin lines of `kind` among `items`. */
  function CountPins(items: seq<Item>, kind: PinKind): nat
  {
    if |items| == 0 then 0
    else (if items[0].PinLine? && items[0].kind == kind then 1 else 0) + CountPins(items[1..], kind)
  }

  lemma {:induction false} CountPinsAppend(a: seq<Item>, b: seq<Item>, kind: PinKind)
    ensures CountPins(a + b, kind) == CountPins(a, kind) + CountPins(b, kind)
    decreases |a|
  {
    if |a| == 0 {
      assert a + b == b;
    } else {
      assert (a + b)[0] == a[0];
      assert (a + b)[1..] == a[1..] + b;
      CountPinsAppend(a[1..], b, kind);
    }
  }

  lemma {:induction false} CountPinsNone(items: seq<Item>, kind: PinKind)
    requires forall it :: it in items ==> !it.PinLine?
    ensures CountPins(items, kind) == 0
    decreases |items|
  {
    if |items| > 0 {
      assert forall it :: it in items[1..] ==> it in items;
      CountPinsNone(items[1..], kind);
    }
  }

  /** An item is printed exactly when one of the five parts of the resolution prints it. */
  lemma PeripheralsMembers(para: Para, pwm: Para)
    requires PwmChannelIsInt(para)
    ensures forall it :: it in Peripherals(para, pwm) <==>
              || it in GatedPin(para, "lcd_power_used", LcdPower, Power)
              || it in GatedPin(para, "lcd_bl_en_used", LcdBlEn, BacklightEnable)
              || it in ContradictionItems(para)
              || it in PwmPinItems(para, pwm)
              || it in LegacyItems(para, LegacyFields)
  {
  }

  /** The power pin is reported exactly when its usage flag is not 0 (an absent flag
      counts as used) and the field is present: as a pin line when it decodes, else as
      a "could not decode" warning carrying the raw value. */
  lemma PowerPinResolution(para: Para, pwm: Para)
    requires PwmChannelIsInt(para)
    ensures forall p :: PinLine(Power, p) in Peripherals(para, pwm) <==>
              NotZero(para, "lcd_power_used") && DecodeValue(Get(para, "lcd_power")) == Some(p)
    ensures forall v :: Undecodable(LcdPower, v) in Peripherals(para, pwm) <==>
              && NotZero(para, "lcd_power_used") && "lcd_power" in para
              && DecodeValue(Get(para, "lcd_power")).None? && v == Get(para, "lcd_power")
  {
    PeripheralsMembers(para, pwm);
  }

  /** The backlight-enable pin follows the same rule with `lcd_bl_en_used` and `lcd_bl_en`. */
  lemma BacklightEnableResolution(para: Para, pwm: Para)
    requires PwmChannelIsInt(para)
    ensures forall p :: PinLine(BacklightEnable, p) in Peripherals(para, pwm) <==>
              NotZero(para, "lcd_bl_en_used") && DecodeValue(Get(para, "lcd_bl_en")) == Some(p)
    ensures forall v :: Undecodable(LcdBlEn, v) in Peripherals(para, pwm) <==>
              && NotZero(para, "lcd_bl_en_used") && "lcd_bl_en" in para
              && DecodeValue(Get(para, "lcd_bl_en")).None? && v == Get(para, "lcd_bl_en")
  {
    PeripheralsMembers(para, pwm);
  }

  /** An absent usage flag behaves as "used": a present power pin is then always
      reported, as a pin or as a warning. */
  lemma AbsentPowerFlagMeansUsed(para: Para, pwm: Para)
    requires PwmChannelIsInt(para)
    requires "lcd_power_used" !in para && "lcd_power" in para
    ensures var out := Peripherals(para, pwm);
            (exists p :: PinLine(Power, p) in out) || Undecodable(LcdPower, Some(para["lcd_power"])) in out
  {
    PowerPinResolution(para, pwm);
    var d := DecodeValue(Get(para, "lcd_power"));
    if d.Some? {
      assert PinLine(Power, d.value) in Peripherals(para, pwm);
    }
  }

  /** The PWM items of the output are those of the PWM resolution. */
  lemma PwmAlone(para: Para, pwm: Para)
    requires PwmChannelIsInt(para)
    ensures forall p :: PinLine(BacklightPwm, p) in Peripherals(para, pwm) <==>
                          PinLine(BacklightPwm, p) in PwmPinItems(para, pwm)
    ensures forall name :: PwmFromSection(name) in Peripherals(para, pwm) <==>
                             PwmFromSection(name) in PwmPinItems(para, pwm)
    ensures forall f, v :: f in {LcdPwm, PwmPositive} ==>
              (Undecodable(f, v) in Peripherals(para, pwm) <==> Undecodable(f, v) in PwmPinItems(para, pwm))
  {
    PwmPinLinesAlone(para, pwm);
    PwmSectionAlone(para, pwm);
    PwmWarningsAlone(para, pwm);
  }

  lemma PwmPinLinesAlone(para: Para, pwm: Para)
    requires PwmChannelIsInt(para)
    ensures forall p :: PinLine(BacklightPwm, p) in Peripherals(para, pwm) <==>
                          PinLine(BacklightPwm, p) in PwmPinItems(para, pwm)
  {
    PeripheralsMembers(para, pwm);
  }

  lemma PwmSectionAlone(para: Para, pwm: Para)
    requires PwmChannelIsInt(para)
    ensures forall name :: PwmFromSection(name) in Peripherals(para, pwm) <==>
                             PwmFromSection(name) in PwmPinItems(para, pwm)
  {
    PeripheralsMembers(para, pwm);
  }

  lemma PwmWarningsAlone(para: Para, pwm: Para)
    requires PwmChannelIsInt(para)
    ensures forall f, v :: f in {LcdPwm, PwmPositive} ==>
              (Undecodable(f, v) in Peripherals(para, pwm) <==> Undecodable(f, v) in PwmPinItems(para, pwm))
  {
    PeripheralsMembers(para, pwm);
  }

  /** The backlight PWM pin comes from the direct `lcd_pwm` field or from the
      `pwm_positive` field of the `[pwmN_para]` section; the two paths never both run. */
  lemma PwmPinResolution(para: Para, pwm: Para)
    requires PwmChannelIsInt(para)
    ensures forall p :: PinLine(BacklightPwm, p) in Peripherals(para, pwm) <==>
              || (DirectPwm(para) && DecodeValue(Get(para, "lcd_pwm")) == Some(p))
              || (FallbackPwm(para)
                  && DecodeValue(Get(pwm, "pwm_positive")) == Some(p))
    ensures !(DirectPwm(para) && FallbackPwm(para))
  {
    PwmAlone(para, pwm);
  }

  /** The section lookup happens exactly on the fallback path, and then nothing is said
      about `lcd_pwm`. */
  lemma PwmPathsExclusive(para: Para, pwm: Para)
    requires PwmChannelIsInt(para)
    ensures (exists name :: PwmFromSection(name) in Peripherals(para, pwm)) <==> FallbackPwm(para)
    ensures FallbackPwm(para) ==> forall v :: Undecodable(LcdPwm, v) !in Peripherals(para, pwm)
    ensures DirectPwm(para) ==> forall v :: Undecodable(PwmPositive, v) !in Peripherals(para, pwm)
  {
    PwmAlone(para, pwm);
    if FallbackPwm(para) {
      assert PwmFromSection(PwmSectionName(para["lcd_pwm_ch"].n)) in PwmPinItems(para, pwm);
    }
  }

  /** `lcd_pwm_not_used = 1` switches the whole PWM resolution off. */
  lemma PwmNotUsedSilencesPwm(para: Para, pwm: Para)
    requires PwmChannelIsInt(para)
    requires Is(para, "lcd_pwm_not_used", 1)
    ensures forall p :: PinLine(BacklightPwm, p) !in Peripherals(para, pwm)
    ensures forall name :: PwmFromSection(name) !in Peripherals(para, pwm)
    ensures forall v :: Undecodable(LcdPwm, v) !in Peripherals(para, pwm)
    ensures forall v :: Undecodable(PwmPositive, v) !in Peripherals(para, pwm)
  {
    PwmAlone(para, pwm);
  }

  /** The contradiction warning is printed exactly when both PWM flags are present and
      equal, whatever else the PWM resolution does. */
  lemma ContradictionWarning(para: Para, pwm: Para)
    requires PwmChannelIsInt(para)
    ensures PwmContradiction in Peripherals(para, pwm) <==> Contradicting(para)
  {
    PeripheralsMembers(para, pwm);
  }

  /** When the fallback names a section the file does not have, the output says the pin
      was taken from that section and that `pwm_positive` (nil) could not be decoded;
      no "section not found" warning exists in the output. */
  lemma MissingPwmSectionReportsNil(lines: seq<string>, para: Para)
    requires PwmChannelIsInt(para) && FallbackPwm(para)
    requires forall j :: 0 <= j < |lines| ==> HeaderName(lines[j]) != Some(PwmSectionName(para["lcd_pwm_ch"].n))
    ensures var out := Peripherals(para, PwmPara(lines, para));
            && PwmFromSection(PwmSectionName(para["lcd_pwm_ch"].n)) in out
            && Undecodable(PwmPositive, None) in out
            && forall p :: PinLine(BacklightPwm, p) !in out
  {
    var name := PwmSectionName(para["lcd_pwm_ch"].n);
    AbsentSectionIsEmpty(lines, name);
    var pwm := PwmPara(lines, para);
    assert pwm == map[];
    PwmAlone(para, pwm);
    assert PwmPinItems(para, pwm) == [PwmFromSection(name), Undecodable(PwmPositive, None)];
  }

  lemma GatedPinCount(para: Para, flag: string, field: PinField, own: PinKind, kind: PinKind)
    ensures CountPins(GatedPin(para, flag, field, own), kind) <= if kind == own then 1 else 0
  {
    var r := GatedPin(para, flag, field, own);
    if |r| == 1 {
      assert CountPins(r[1..], kind) == 0;
    }
  }

  lemma PwmPinCount(para: Para, pwm: Para, kind: PinKind)
    requires PwmChannelIsInt(para)
    ensures CountPins(PwmPinItems(para, pwm), kind) <= if kind == BacklightPwm then 1 else 0
  {
    var r := PwmPinItems(para, pwm);
    if |r| == 1 {
      assert CountPins(r[1..], kind) == 0;
    } else if |r| == 2 {
      assert !r[0].PinLine?;
      assert CountPins(r[1..][1..], kind) == 0;
    }
  }

  /** Each of the three pin settings is printed at most once per board. */
  lemma EachPinAtMostOnce(para: Para, pwm: Para, kind: PinKind)
    requires PwmChannelIsInt(para)
    ensures CountPins(Peripherals(para, pwm), kind) <= 1
  {
    var power := GatedPin(para, "lcd_power_used", LcdPower, Power);
    var blEn := GatedPin(para, "lcd_bl_en_used", LcdBlEn, BacklightEnable);
    var warning := ContradictionItems(para);
    var pwmItems := PwmPinItems(para, pwm);
    var legacy := LegacyItems(para, LegacyFields);
    assert Peripherals(para, pwm) == power + blEn + warning + pwmItems + legacy;
    CountPinsAppend(power, blEn, kind);
    CountPinsAppend(power + blEn, warning, kind);
    CountPinsAppend(power + blEn + warning, pwmItems, kind);
    CountPinsAppend(power + blEn + warning + pwmItems, legacy, kind);
    CountPinsNone(warning, kind);
    CountPinsNone(legacy, kind);
    GatedPinCount(para, "lcd_power_used", LcdPower, Power, kind);
    GatedPinCount(para, "lcd_bl_en_used", LcdBlEn, BacklightEnable, kind);
    PwmPinCount(para, pwm, kind);
  }

  /** A warning is printed for exactly the legacy GPIO fields that are present. */
  lemma LegacyWarnings(para: Para, pwm: Para)
    requires PwmChannelIsInt(para)
    ensures forall f, v :: LegacyGpio(f, v) in Peripherals(para, pwm) <==>
              f in LegacyFields && f in para && para[f] == v
  {
    PeripheralsMembers(para, pwm);
  }

  /** What a processed board prints besides its header, mode line and closing blank line
      is exactly what the peripheral resolution prints, so the resolution lemmas above
      describe the board's output. */
  lemma BoardPrintsPeripherals(b: Panel)
    requires Processable(b) && Eligible(b.para) && VtDivisor(b.soc).Some?
    ensures forall it: Item :: !it.BoardHeader? && !it.ModeLine? && !it.BlankLine? ==>
              (it in ProcessBoard(b).items <==> it in Peripherals(b.para, b.pwm))
  {
    var mid := Peripherals(b.para, b.pwm);
    var r := ProcessBoard(b);
    assert r.items == [BoardHeader(b.name, b.soc), ModeLine(GetConfigVideoLcdMode(b.para, b.soc).value)] + mid + [BlankLine];
    FramedMembers(BoardHeader(b.name, b.soc), ModeLine(GetConfigVideoLcdMode(b.para, b.soc).value), mid);
  }

  /** The items between a header, a mode line and a closing blank line. */
  lemma FramedMembers(h: Item, m: Item, mid: seq<Item>)
    ensures forall it :: it in [h, m] + mid + [BlankLine] <==> it == h || it == m || it in mid || it == BlankLine
    ensures forall kind :: !h.PinLine? && !m.PinLine? ==> CountPins([h, m] + mid + [BlankLine], kind) == CountPins(mid, kind)
  {
    forall kind | !h.PinLine? && !m.PinLine?
      ensures CountPins([h, m] + mid + [BlankLine], kind) == CountPins(mid, kind)
    {
      CountPinsAppend([h, m], mid, kind);
      CountPinsAppend([h, m] + mid, [BlankLine], kind);
      CountPinsNone([h, m], kind);
      CountPinsNone([BlankLine], kind);
    }
  }

  /** Each pin setting appears at most once in a board's block of output. */
  lemma BoardPrintsEachPinAtMostOnce(b: Panel, kind: PinKind)
    requires Processable(b)
    ensures CountPins(ProcessBoard(b).items, kind) <= 1
  {
    var r := ProcessBoard(b);
    if r.Done? && r.items != [] {
      var mid := Peripherals(b.para, b.pwm);
      var h, m := BoardHeader(b.name, b.soc), ModeLine(GetConfigVideoLcdMode(b.para, b.soc).value);
      assert r.items == [h, m] + mid + [BlankLine];
      FramedMembers(h, m, mid);
      EachPinAtMostOnce(b.para, b.pwm, kind);
    } else {
      CountPinsNone(r.items, kind);
    }
  }

  /** `Then` is associative. */
  lemma ThenThen(x: seq<Item>, y: seq<Item>, r: Report)
    ensures Then(x, Then(y, r)) == Then(x + y, r)
  {
    assert x + (y + r.items) == (x + y) + r.items;
  }

  /** One step of the run: the first board's report, then the rest unless it aborted. */
  lemma RunStep(bs: seq<Panel>)
    requires |bs| > 0 && Runnable(bs)
    ensures Processable(bs[0])
    ensures ProcessBoard(bs[0]).Aborted? ==> Run(bs) == ProcessBoard(bs[0])
    ensures ProcessBoard(bs[0]).Done? ==> Runnable(bs[1..]) && Run(bs) == Then(ProcessBoard(bs[0]).items, Run(bs[1..]))
  {
  }

  /** A run that can go through `a + b` can go through `a`. */
  lemma {:induction false} RunnablePrefix(a: seq<Panel>, b: seq<Panel>)
    requires Runnable(a + b)
    ensures Runnable(a)
    decreases |a|
  {
    if |a| > 0 {
      assert (a + b)[0] == a[0];
      assert (a + b)[1..] == a[1..] + b;
      if !Aborts(a[0]) {
        RunnablePrefix(a[1..], b);
      }
    }
  }

  /** Boards are processed independently: the run over `a + b` is the run over `a`,
      followed, unless `a` aborted, by the run over `b`. */
  lemma {:induction false} RunSplits(a: seq<Panel>, b: seq<Panel>)
    requires Runnable(a + b)
    ensures Runnable(a)
    ensures Run(a).Aborted? ==> Run(a + b) == Run(a)
    ensures Run(a).Done? ==> Runnable(b) && Run(a + b) == Then(Run(a).items, Run(b))
    decreases |a|
  {
    RunnablePrefix(a, b);
    if |a| == 0 {
      assert a + b == b;
    } else {
      assert (a + b)[0] == a[0];
      assert (a + b)[1..] == a[1..] + b;
      RunStep(a + b);
      RunStep(a);
      var r0 := ProcessBoard(a[0]);
      if r0.Done? {
        RunSplits(a[1..], b);
        if Run(a[1..]).Done? {
          ThenThen(r0.items, Run(a[1..]).items, Run(b));
        }
      }
    }
  }
}

=== FILE: common.dfy ===
/** Failure-carrying wrappers shared by the other modules. */
module Common {

  /** An optional value: Ruby's `nil` versus a present object. */
  datatype Option<+T> = None | Some(value: T)

  /** The outcome of a computation that may abort the whole run. */
  datatype Result<+T, +E> = Success(value: T) | Failure(error: E)
}

=== FILE: fex.dfy ===
/**
 The section reader of u-boot-lcd-config.rb (`parse_fex_section`): a scan over
 the lines of a FEX board description that keeps the `key = value` lines of one
 `[section]`, types each value as an integer or a stripped string, lets a later
 line overwrite an earlier one and finally deletes blank values.

 Lines are given without their line terminator (a trailing "\n" changes no match:
 the string value is stripped and the integer pattern ends in `\s*$`).
 */
module Fex {
  import opened Common
  import opened Text

  /** A stored value: `String#to_i` of a digit run, or a stripped string. */
  datatype Value = I(n: int) | S(s: string)

  datatype Entry = Entry(key: string, value: Value)

  /** The two values deleted after the scan: "" and the two-character text `""`. */
  predicate IsBlank(v: Value) {
    v == S("") || v == S("\"\"")
  }

  /** What the reader can store: a non-negative integer or a stripped string. */
  predicate IsReaderValue(v: Value) {
    match v
    case I(n) => n >= 0
    case S(s) => IsStripped(s)
  }

  // ---------------------------------------------------------------- headers

  /** First index at or after `from` holding `c`. */
  function IndexOf(s: string, c: char, from: nat): (r: Option<nat>)
    ensures r.Some? ==> from <= r.value < |s| && s[r.value] == c
    ensures r.Some? ==> forall i :: from <= i < r.value ==> s[i] != c
    ensures r.None? ==> forall i :: from <= i < |s| ==> s[i] != c
    decreases |s| - from
  {
    if from >= |s| then None
    else if s[from] == c then Some(from)
    else IndexOf(s, c, from + 1)
  }

  /** The section a header line `^\[(.*?)\]` opens: the text between the leading
      '[' and the first ']' after it. */
  function HeaderName(l: string): Option<string>
  {
    if |l| >= 1 && l[0] == '[' then
      match IndexOf(l, ']', 1)
      case Some(j) => Some(l[1..j])
      case None => None
    else None
  }

  /** A line is a header exactly when it starts with '[' and has a ']' later; the
      name is everything up to the first ']'. */
  lemma HeaderNameShape(l: string)
    ensures HeaderName(l).Some? <==> |l| >= 1 && l[0] == '[' && exists j :: 1 <= j < |l| && l[j] == ']'
    ensures HeaderName(l).Some? ==> var h := HeaderName(l).value;
              |h| + 2 <= |l| && l[..|h| + 2] == "[" + h + "]" && ']' !in h
  {
    if HeaderName(l).Some? {
      var j := IndexOf(l, ']', 1).value;
      assert l[..j + 1] == "[" + l[1..j] + "]";
    }
  }

  // ---------------------------------------------------------- key = value

  /** `j` can end the key of `^(\S+)\s*\=`: the first `j` characters are non-blank,
      there is at least one, and the first non-`\s` character at or after `j` is '='. */
  predicate ValidKeyEnd(l: string, j: nat) {
    && 1 <= j <= |l|
    && (forall i :: 0 <= i < j ==> !IsSpace(l[i]))
    && j + SpaceRun(l, j) < |l|
    && l[j + SpaceRun(l, j)] == '='
  }

  /** Largest `j` with `1 <= j < k` and `l[j] == '='`. */
  function LastEqualsBefore(l: string, k: nat): (r: Option<nat>)
    requires k <= |l|
    ensures r.Some? ==> 1 <= r.value < k && l[r.value] == '='
    ensures r.Some? ==> forall j :: r.value < j < k ==> l[j] != '='
    ensures r.None? ==> forall j :: 1 <= j < k ==> l[j] != '='
    decreases k
  {
    if k <= 1 then None
    else if l[k - 1] == '=' then Some(k - 1)
    else LastEqualsBefore(l, k - 1)
  }

  /** Where the greedy `(\S+)` of `^(\S+)\s*\=` stops after backtracking: the
      longest valid key end, or none when the line has no `key = value` shape. */
  function KeyEnd(l: string): (r: Option<nat>)
    ensures r.None? <==> forall j :: 0 <= j <= |l| ==> !ValidKeyEnd(l, j)
    ensures r.Some? ==> ValidKeyEnd(l, r.value)
    ensures r.Some? ==> forall j :: r.value < j <= |l| ==> !ValidKeyEnd(l, j)
  {
    var k := NonSpaceRun(l, 0);
    if k >= 1 && ValidKeyEnd(l, k) then Some(k)
    else
      var r := LastEqualsBefore(l, k);
      assert forall j :: k <= j <= |l| ==> !ValidKeyEnd(l, j) by {
        forall j | k <= j <= |l| ensures !ValidKeyEnd(l, j) {
          if k < j { assert IsSpace(l[k]); }
        }
      }
      assert forall j :: 1 <= j < k ==> (ValidKeyEnd(l, j) <==> l[j] == '=') by {
        forall j | 1 <= j < k ensures ValidKeyEnd(l, j) <==> l[j] == '=' {
          assert SpaceRun(l, j) == 0;
        }
      }
      r
  }

  /** A `key = value` line cut into its key and its raw value (the text after the
      '=' and the blanks that follow it). */
  datatype Split = Split(key: string, raw: string)

  function SplitLine(l: string): (r: Option<Split>)
    ensures r.None? <==> forall j :: 0 <= j <= |l| ==> !ValidKeyEnd(l, j)
    ensures r.Some? ==> ValidKeyEnd(l, |r.value.key|)
    ensures r.Some? ==> forall j :: |r.value.key| < j <= |l| ==> !ValidKeyEnd(l, j)
    ensures r.Some? ==> r.value.raw == "" || !IsSpace(r.value.raw[0])
    ensures r.Some? ==> exists w1, w2 :: AllSpace(w1) && AllSpace(w2)
                          && l == r.value.key + w1 + "=" + w2 + r.value.raw
  {
    match KeyEnd(l)
    case None => None
    case Some(k) =>
      var p := k + SpaceRun(l, k);
      var q := p + 1 + SpaceRun(l, p + 1);
      SplitShape(l, k, p, q);
      Some(Split(l[..k], l[q..]))
  }

  /** Cutting a line at the key end, the '=' and the value start. */
  lemma SplitShape(l: string, k: nat, p: nat, q: nat)
    requires k <= p < q <= |l| && l[p] == '='
    requires forall i :: k <= i < p ==> IsSpace(l[i])
    requires forall i :: p < i < q ==> IsSpace(l[i])
    ensures exists w1, w2 :: AllSpace(w1) && AllSpace(w2) && l == l[..k] + w1 + "=" + w2 + l[q..]
  {
    var w1, w2 := l[k..p], l[p + 1..q];
    assert AllSpace(w1) && AllSpace(w2);
    assert l == l[..k] + w1 + "=" + w2 + l[q..];
  }

  /** The raw value matches `(\d+)\s*$`: a digit run followed only by blanks. */
  predicate IsIntegerText(raw: string) {
    DigitRun(raw, 0) >= 1 && AllSpace(raw[DigitRun(raw, 0)..])
  }

  /** Lines 27-28: a digit value is stored by `to_i`, any other as stripped text. */
  function Classify(raw: string): (v: Value)
    ensures v.I? <==> IsIntegerText(raw)
    ensures v.I? ==> exists d, w :: |d| >= 1 && AllDigits(d) && AllSpace(w) && raw == d + w
                                   && v.n == DigitsValue(d)
    ensures v.S? ==> v.s == Strip(raw)
    ensures IsReaderValue(v)
  {
    var d := DigitRun(raw, 0);
    if d >= 1 && AllSpace(raw[d..]) then
      assert raw == raw[..d] + raw[d..];
      I(DigitsValue(raw[..d]))
    else S(Strip(raw))
  }

  /** A value of digits followed only by blanks is stored as the integer it denotes:
      leading zeros and trailing blanks do not matter. */
  lemma ClassifyDigits(zeros: string, n: nat, blanks: string)
    requires forall i :: 0 <= i < |zeros| ==> zeros[i] == '0'
    requires AllSpace(blanks)
    ensures Classify(zeros + NatToString(n) + blanks) == I(n)
  {
    var digits := zeros + NatToString(n);
    var raw := digits + blanks;
    LeadingZerosIgnored(zeros, NatToString(n));
    assert forall i :: 0 <= i < |digits| ==> raw[i] == digits[i];
    DigitRunEndsAt(raw, 0, |digits|);
    assert raw[|digits|..] == blanks && raw[..|digits|] == digits;
    NatToStringRoundTrip(n);
  }

  /** The entry a line inside the target section contributes, if any. */
  function LineEntry(l: string): Option<Entry>
  {
    match SplitLine(l)
    case Some(sp) => Some(Entry(sp.key, Classify(sp.raw)))
    case None => None
  }

  /** A line gives an entry exactly when it has the `key = value` shape; the key is a
      non-empty blank-free word and the value is one the reader can store. */
  lemma LineEntryShape(l: string)
    ensures LineEntry(l).Some? <==> exists j :: 0 <= j <= |l| && ValidKeyEnd(l, j)
    ensures LineEntry(l).Some? ==> var e := LineEntry(l).value;
              |e.key| >= 1 && NoSpace(e.key) && IsReaderValue(e.value)
  {
    if LineEntry(l).Some? {
      assert ValidKeyEnd(l, |SplitLine(l).value.key|);
    }
  }

  /** A `key = value` line as a FEX file writes it. */
  function FormatLine(key: string, v: Value): string
    requires IsReaderValue(v)
  {
    key + " = " + match v
                  case I(n) => NatToString(n)
                  case S(text) => text
  }

  /** A line `key = raw` splits into exactly that key and raw value. */
  lemma SplitWrittenLine(key: string, raw: string)
    requires |key| >= 1 && NoSpace(key)
    requires raw == "" || !IsSpace(raw[0])
    ensures SplitLine(key + " = " + raw) == Some(Split(key, raw))
  {
    var l := key + " = " + raw;
    NonSpaceRunEndsAtBlank(l, 0, |key|);
    assert SpaceRun(l, |key|) == 1;
    assert ValidKeyEnd(l, |key|);
    assert SpaceRun(l, |key| + 3) == 0 by {
      if |key| + 3 < |l| {
        assert l[|key| + 3] == raw[0];
      }
    }
    assert l[..|key|] == key && l[|key| + 3..] == raw;
  }

  /** Reading a written line gives back its key and value: integers come back as
      integers, and any stored text that does not look like a number comes back as
      the same text. */
  lemma FormatLineRoundTrip(key: string, v: Value)
    requires |key| >= 1 && NoSpace(key)
    requires IsReaderValue(v)
    requires v.S? ==> !IsIntegerText(v.s)
    ensures LineEntry(FormatLine(key, v)) == Some(Entry(key, v))
  {
    match v {
      case I(n) => IntLineRoundTrip(key, n);
      case S(text) => TextLineRoundTrip(key, text);
    }
  }

  lemma IntLineRoundTrip(key: string, n: nat)
    requires |key| >= 1 && NoSpace(key)
    ensures LineEntry(key + " = " + NatToString(n)) == Some(Entry(key, I(n)))
  {
    var raw := NatToString(n);
    assert IsDigit(raw[0]);
    SplitWrittenLine(key, raw);
    assert "" + raw + "" == raw;
    ClassifyDigits("", n, "");
  }

  lemma TextLineRoundTrip(key: string, text: string)
    requires |key| >= 1 && NoSpace(key)
    requires IsStripped(text) && !IsIntegerText(text)
    ensures LineEntry(key + " = " + text) == Some(Entry(key, S(text)))
  {
    SplitWrittenLine(key, text);
    StripOfStripped(text);
  }

  // ------------------------------------------------------------- sections

  /** What the two regular expressions of the scan see in one line: the section a
      header opens, and the entry a `key = value` line gives. */
  datatype Line = Line(header: Option<string>, entry: Option<Entry>)

  function ReadLines(lines: seq<string>): (ls: seq<Line>)
    ensures |ls| == |lines|
    ensures forall i :: 0 <= i < |lines| ==> ls[i] == Line(HeaderName(lines[i]), LineEntry(lines[i]))
    ensures forall i :: 0 <= i < |ls| && ls[i].entry.Some? ==> IsReaderValue(ls[i].entry.value.value)
  {
    seq(|lines|, i requires 0 <= i < |lines| => Line(HeaderName(lines[i]), LineEntry(lines[i])))
  }

  /** `current_section` once the scan has read lines `0..i` (`i == -1`: before any line). */
  function SectionAfter(ls: seq<Line>, i: int): string
    requires -1 <= i < |ls|
    decreases i + 1
  {
    if i < 0 then ""
    else match ls[i].header
      case Some(h) => h
      case None => SectionAfter(ls, i - 1)
  }

  /** The `results` hash once the first `n` lines are read, before blank values are deleted. */
  function CollectUpTo(ls: seq<Line>, section: string, n: nat): map<string, Value>
    requires n <= |ls|
  {
    if n == 0 then map[]
    else
      var prev := CollectUpTo(ls, section, n - 1);
      if SectionAfter(ls, n - 1) != section then prev
      else match ls[n - 1].entry
        case Some(e) => prev[e.key := e.value]
        case None => prev
  }

  /** The scan stores only values that some line carried. */
  lemma {:induction false} CollectUpToValues(ls: seq<Line>, section: string, n: nat)
    requires n <= |ls|
    requires forall i :: 0 <= i < |ls| && ls[i].entry.Some? ==> IsReaderValue(ls[i].entry.value.value)
    ensures forall k :: k in CollectUpTo(ls, section, n) ==> IsReaderValue(CollectUpTo(ls, section, n)[k])
  {
    if n > 0 {
      CollectUpToValues(ls, section, n - 1);
    }
  }

  /** `parse_fex_section`: the typed entries of `section`, blank values removed. */
  function ParseFexSection(lines: seq<string>, section: string): (r: map<string, Value>)
    ensures forall k :: k in r ==> !IsBlank(r[k]) && IsReaderValue(r[k])
  {
    CollectUpToValues(ReadLines(lines), section, |lines|);
    DropBlank(CollectUpTo(ReadLines(lines), section, |lines|))
  }

  /** The entries whose value is not blank. */
  function DropBlank(raw: map<string, Value>): map<string, Value>
  {
    map k | k in raw && !IsBlank(raw[k]) :: raw[k]
  }

  // ------------------------------------------------- reference description

  /** Line `i` is read while the scan is inside `section`. */
  ghost predicate InSection(ls: seq<Line>, section: string, i: int)
  {
    0 <= i < |ls| && SectionAfter(ls, i) == section
  }

  /** Line `i` is inside `section` and names `key`. */
  ghost predicate Sets(ls: seq<Line>, section: string, i: int, key: string)
  {
    InSection(ls, section, i) && ls[i].entry.Some? && ls[i].entry.value.key == key
  }

  /** Among the first `n` lines, line `i` is the last one inside `section` naming `key`. */
  ghost predicate LastBefore(ls: seq<Line>, section: string, n: int, i: int, key: string)
  {
    && 0 <= i < n <= |ls|
    && Sets(ls, section, i, key)
    && forall j :: i < j < n ==> !Sets(ls, section, j, key)
  }

  /** Reading line `n - 1` moves "the last line for `key`" there exactly when it names `key`. */
  lemma LastBeforeStep(ls: seq<Line>, section: string, n: int, key: string)
    requires 0 < n <= |ls|
    ensures LastBefore(ls, section, n, n - 1, key) <==> Sets(ls, section, n - 1, key)
    ensures forall i :: 0 <= i < n - 1 ==>
              (LastBefore(ls, section, n, i, key) <==>
                 LastBefore(ls, section, n - 1, i, key) && !Sets(ls, section, n - 1, key))
  {
  }

  /** The scan keeps, for every key, the value of the last line inside the section
      that names it, and keeps no other key. */
  lemma {:induction false} CollectIsLastWins(ls: seq<Line>, section: string, n: nat)
    requires n <= |ls|
    ensures forall key :: key in CollectUpTo(ls, section, n) ==> exists i :: LastBefore(ls, section, n, i, key)
    ensures forall key, i :: LastBefore(ls, section, n, i, key) ==>
              && key in CollectUpTo(ls, section, n)
              && CollectUpTo(ls, section, n)[key] == ls[i].entry.value.value
  {
    if n > 0 {
      CollectIsLastWins(ls, section, n - 1);
      var r := CollectUpTo(ls, section, n);
      var prev := CollectUpTo(ls, section, n - 1);
      var e := ls[n - 1].entry;
      var hit := InSection(ls, section, n - 1) && e.Some?;
      assert r == if hit then prev[e.value.key := e.value.value] else prev;
      forall key | key in r ensures exists i :: LastBefore(ls, section, n, i, key) {
        LastBeforeStep(ls, section, n, key);
        if hit && e.value.key == key {
          assert LastBefore(ls, section, n, n - 1, key);
        } else {
          var i :| LastBefore(ls, section, n - 1, i, key);
          assert LastBefore(ls, section, n, i, key);
        }
      }
      forall key, i | LastBefore(ls, section, n, i, key)
        ensures key in r && r[key] == ls[i].entry.value.value
      {
        LastBeforeStep(ls, section, n, key);
      }
    }
  }

  /** `parse_fex_section` in full: a key is present exactly when the last line inside
      the section that names it carries a non-blank value, and it maps to that value;
      a later line for a key overrides every earlier one. */
  lemma ParseFexSectionIsLastWins(lines: seq<string>, section: string)
    ensures var ls := ReadLines(lines);
            forall key :: key in ParseFexSection(lines, section) ==>
              exists i :: LastBefore(ls, section, |ls|, i, key) && !IsBlank(LineEntry(lines[i]).value.value)
    ensures var ls := ReadLines(lines);
            forall key, i :: LastBefore(ls, section, |ls|, i, key) ==>
              if IsBlank(LineEntry(lines[i]).value.value) then key !in ParseFexSection(lines, section)
              else key in ParseFexSection(lines, section)
                   && ParseFexSection(lines, section)[key] == LineEntry(lines[i]).value.value
  {
    CollectIsLastWins(ReadLines(lines), section, |lines|);
  }

  /** `current_section` is the name of the last header read, or "" before any header. */
  lemma {:induction false} SectionAfterIsLastHeader(ls: seq<Line>, i: int)
    requires -1 <= i < |ls|
    ensures (forall m :: 0 <= m <= i ==> ls[m].header.None?) ==> SectionAfter(ls, i) == ""
    ensures forall j :: 0 <= j <= i && ls[j].header.Some? && (forall m :: j < m <= i ==> ls[m].header.None?) ==>
              SectionAfter(ls, i) == ls[j].header.value
    decreases i + 1
  {
    if i >= 0 && ls[i].header.None? {
      SectionAfterIsLastHeader(ls, i - 1);
    }
  }

  /** The current section is "" or the name of a header already read. */
  lemma {:induction false} SectionAfterIsSeen(ls: seq<Line>, i: int)
    requires -1 <= i < |ls|
    ensures SectionAfter(ls, i) == "" || exists j :: 0 <= j <= i && ls[j].header == Some(SectionAfter(ls, i))
    decreases i + 1
  {
    if i >= 0 && ls[i].header.None? {
      SectionAfterIsSeen(ls, i - 1);
    }
  }

  /** A section that never appears gives the empty map, not an error. */
  lemma AbsentSectionIsEmpty(lines: seq<string>, section: string)
    requires section != ""
    requires forall j :: 0 <= j < |lines| ==> HeaderName(lines[j]) != Some(section)
    ensures ParseFexSection(lines, section) == map[]
  {
    var ls := ReadLines(lines);
    forall i | 0 <= i < |ls| ensures SectionAfter(ls, i) != section {
      SectionAfterIsSeen(ls, i);
    }
    NothingCollected(ls, section, |ls|);
    assert ParseFexSection(lines, section) == DropBlank(CollectUpTo(ls, section, |ls|));
  }

  /** Lines read outside `section` leave its hash empty. */
  lemma {:induction false} NothingCollected(ls: seq<Line>, section: string, n: nat)
    requires n <= |ls|
    requires forall i :: 0 <= i < n ==> SectionAfter(ls, i) != section
    ensures CollectUpTo(ls, section, n) == map[]
  {
    if n > 0 {
      NothingCollected(ls, section, n - 1);
    }
  }

  /** A written header opens its section and gives no entry. */
  lemma WrittenHeaderReads(section: string)
    requires ']' !in section && '=' !in section
    ensures HeaderName("[" + section + "]") == Some(section)
    ensures LineEntry("[" + section + "]") == None
  {
    var header := "[" + section + "]";
    assert forall i :: 1 <= i <= |section| ==> header[i] == section[i - 1];
    assert header[|section| + 1] == ']';
    assert IndexOf(header, ']', 1) == Some(|section| + 1);
    assert header[1..|section| + 1] == section;
    LineEntryShape(header);
    assert forall j :: 0 <= j <= |header| ==> !ValidKeyEnd(header, j);
  }

  /** A section written as a header and one `key = value` line reads back as that one
      entry. */
  lemma WrittenSectionRoundTrip(section: string, key: string, v: Value)
    requires ']' !in section && '=' !in section
    requires |key| >= 1 && NoSpace(key) && key[0] != '['
    requires IsReaderValue(v) && !IsBlank(v)
    requires v.S? ==> !IsIntegerText(v.s)
    ensures ParseFexSection(["[" + section + "]", FormatLine(key, v)], section) == map[key := v]
  {
    var lines := ["[" + section + "]", FormatLine(key, v)];
    ReadWrittenSection(section, key, v);
    ReadTwoLines(section, key, v);
    assert ParseFexSection(lines, section) == DropBlank(CollectUpTo(ReadLines(lines), section, 2));
  }

  lemma ReadWrittenSection(section: string, key: string, v: Value)
    requires ']' !in section && '=' !in section
    requires |key| >= 1 && NoSpace(key) && key[0] != '['
    requires IsReaderValue(v)
    requires v.S? ==> !IsIntegerText(v.s)
    ensures ReadLines(["[" + section + "]", FormatLine(key, v)])
            == [Line(Some(section), None), Line(None, Some(Entry(key, v)))]
  {
    var header := "[" + section + "]";
    var line := FormatLine(key, v);
    ReadPair(header, line);
    WrittenHeaderReads(section);
    EntryLineIsNoHeader(key, v);
    FormatLineRoundTrip(key, v);
  }

  lemma ReadPair(a: string, b: string)
    ensures ReadLines([a, b]) == [Line(HeaderName(a), LineEntry(a)), Line(HeaderName(b), LineEntry(b))]
  {
    var ls := ReadLines([a, b]);
    assert ls[0] == Line(HeaderName(a), LineEntry(a));
    assert ls[1] == Line(HeaderName(b), LineEntry(b));
  }

  lemma EntryLineIsNoHeader(key: string, v: Value)
    requires |key| >= 1 && key[0] != '['
    requires IsReaderValue(v)
    ensures HeaderName(FormatLine(key, v)) == None
  {
    assert FormatLine(key, v)[0] == key[0];
  }

  lemma ReadTwoLines(section: string, key: string, v: Value)
    requires !IsBlank(v)
    ensures var ls := [Line(Some(section), None), Line(None, Some(Entry(key, v)))];
            DropBlank(CollectUpTo(ls, section, 2)) == map[key := v]
  {
    var ls := [Line(Some(section), None), Line(None, Some(Entry(key, v)))];
    assert CollectUpTo(ls, section, 0) == map[];
    assert CollectUpTo(ls, section, 1) == map[];
    assert SectionAfter(ls, 1) == section;
    assert CollectUpTo(ls, section, 2) == map[key := v];
  }
}

=== FILE: gpio.dfy ===
/**
 The pin decoder of u-boot-lcd-config.rb (`decode_gpio`): it finds the first
 `port:P<bank><number><` in a FEX pin descriptor such as `port:PB07<1><0><default>`
 and names the pin as the two port letters followed by the pin number without
 leading zeros (`PB7`).
 */
module Gpio {
  import opened Common
  import opened Text

  /** The text `port:` starts at index `i` of `s`. */
  predicate PortAt(s: string, i: nat) {
    i + 5 <= |s| && s[i..i + 5] == "port:"
  }

  /** The pattern `port:(P[A-Z])(\d+)<` matches starting at index `i` of `s`. */
  predicate MatchAt(s: string, i: nat) {
    && i + 7 <= |s|
    && PortAt(s, i)
    && s[i + 5] == 'P'
    && IsUpper(s[i + 6])
    && DigitRun(s, i + 7) >= 1
    && i + 7 + DigitRun(s, i + 7) < |s|
    && s[i + 7 + DigitRun(s, i + 7)] == '<'
  }

  /** The leftmost index at or after `from` where the pattern matches. */
  function FirstMatch(s: string, from: nat): (r: Option<nat>)
    ensures r.Some? ==> from <= r.value && MatchAt(s, r.value)
    ensures r.Some? ==> forall j :: from <= j < r.value ==> !MatchAt(s, j)
    ensures r.None? ==> forall j :: from <= j ==> !MatchAt(s, j)
    decreases |s| - from
  {
    if from + 7 > |s| then None
    else if MatchAt(s, from) then Some(from)
    else FirstMatch(s, from + 1)
  }

  /** A normalized pin name: `P`, a capital bank letter, a canonical decimal number. */
  predicate IsPinName(name: string) {
    |name| >= 3 && name[0] == 'P' && IsUpper(name[1]) && IsCanonicalNumeral(name[2..])
  }

  /** The pin name for the match at `i`: the two port letters, then the value of the
      digit run printed without leading zeros. */
  function MatchedPin(s: string, i: nat): (name: string)
    requires MatchAt(s, i)
    ensures IsPinName(name)
    ensures name[..2] == s[i + 5..i + 7]
    ensures DigitsValue(name[2..]) == DigitsValue(s[i + 7..i + 7 + DigitRun(s, i + 7)])
  {
    var digits := s[i + 7..i + 7 + DigitRun(s, i + 7)];
    var name := s[i + 5..i + 7] + NatToString(DigitsValue(digits));
    assert name[2..] == NatToString(DigitsValue(digits));
    NatToStringRoundTrip(DigitsValue(digits));
    name
  }

  /** `decode_gpio` on a string: the pin named by the leftmost match, or nil. */
  function DecodeGpio(s: string): (r: Option<string>)
    ensures r.None? <==> forall i :: !MatchAt(s, i)
    ensures r.Some? ==> IsPinName(r.value)
    ensures r.Some? ==> exists i: nat :: && MatchAt(s, i)
                                        && (forall j :: 0 <= j < i ==> !MatchAt(s, j))
                                        && r.value == MatchedPin(s, i)
  {
    match FirstMatch(s, 0)
    case None => None
    case Some(i) => Some(MatchedPin(s, i))
  }

  /** A pin: its bank letter and its number within the bank. */
  datatype Pin = Pin(bank: char, number: nat)

  /** The name the decoder gives a pin, such as `PB7`. */
  function PinName(p: Pin): string {
    "P" + [p.bank] + NatToString(p.number)
  }

  /** A FEX pin descriptor for `p`, its number written with `zeros` in front and
      followed by the rest of the descriptor (`<mux><pull><drive><data>`). */
  function Descriptor(p: Pin, zeros: string, tail: string): string {
    "port:P" + [p.bank] + zeros + NatToString(p.number) + "<" + tail
  }

  /** A descriptor matches at its start, and its digit run is the written number. */
  lemma DescriptorMatches(p: Pin, zeros: string, tail: string)
    requires IsUpper(p.bank)
    requires forall i :: 0 <= i < |zeros| ==> zeros[i] == '0'
    ensures var s := Descriptor(p, zeros, tail);
            var n := |zeros| + |NatToString(p.number)|;
            && DigitRun(s, 7) == n
            && s[7..7 + n] == zeros + NatToString(p.number)
            && s[5..7] == "P" + [p.bank]
            && MatchAt(s, 0)
  {
    var s := Descriptor(p, zeros, tail);
    var digits := zeros + NatToString(p.number);
    assert s == "port:P" + [p.bank] + digits + "<" + tail;
    assert forall i :: 0 <= i < |digits| ==> s[7 + i] == digits[i];
    DigitRunEndsAt(s, 7, |digits|);
    assert s[7..7 + |digits|] == digits;
    assert s[5] == 'P' && s[6] == p.bank;
    assert s[5..7] == "P" + [p.bank];
    assert s[0..5] == "port:";
  }

  /** Decoding a descriptor names its pin, whatever leading zeros its number has. */
  lemma DecodeDescriptor(p: Pin, zeros: string, tail: string)
    requires IsUpper(p.bank)
    requires forall i :: 0 <= i < |zeros| ==> zeros[i] == '0'
    ensures DecodeGpio(Descriptor(p, zeros, tail)) == Some(PinName(p))
  {
    var s := Descriptor(p, zeros, tail);
    DescriptorMatches(p, zeros, tail);
    assert FirstMatch(s, 0) == Some(0);
    LeadingZerosIgnored(zeros, NatToString(p.number));
    NatToStringRoundTrip(p.number);
    assert MatchedPin(s, 0) == PinName(p);
  }

  /** Two pins with the same decoded name are the same pin. */
  lemma {:induction false} PinNameInjective(p: Pin, q: Pin)
    requires PinName(p) == PinName(q)
    ensures p == q
  {
    var a, b := PinName(p), PinName(q);
    assert a[1] == p.bank && b[1] == q.bank;
    assert a[2..] == NatToString(p.number) && b[2..] == NatToString(q.number);
    NatToStringRoundTrip(p.number);
    NatToStringRoundTrip(q.number);
  }

  /** A descriptor with no `port:` in it decodes to nil. */
  lemma NoPortNoPin(s: string)
    requires forall i :: !PortAt(s, i)
    ensures DecodeGpio(s) == None
  {
  }

  /** Example: the descriptor `port:PB007<1><0>` names pin `PB7`, the leading zeros
      of the number dropped. */
  lemma DecodeExample()
    ensures DecodeGpio("port:PB007<1><0>") == Some("PB7")
  {
    ExampleWritten();
    DecodeDescriptor(Pin('B', 7), "00", "1><0>");
  }

  lemma ExampleWritten()
    ensures Descriptor(Pin('B', 7), "00", "1><0>") == "port:PB007<1><0>"
    ensures PinName(Pin('B', 7)) == "PB7"
  {
    assert NatToString(7) == "7";
  }
}

=== FILE: lcd_mode.dfy ===
/**
 The timing derivation of u-boot-lcd-config.rb (`get_config_video_lcd_mode`):
 from the panel fields of a board's `[lcd0_para]` section and the chip family it
 computes the video mode that U-Boot's CONFIG_VIDEO_LCD_MODE string carries.
 The mode is kept as a record of integers rather than as the printed string.
 */
module LcdMode {
  import opened Common
  import opened Fex

  type Para = map<string, Value>

  /** The chip-family table: on a10, a10s, a13 and a20 `lcd_vt` is twice the frame
      height and is halved; on a23, a31 and a31s it is used as is; any other family
      is not in the table and aborts the run. */
  function VtDivisor(soc: string): (r: Option<int>)
    ensures r.Some? ==> r.value == 1 || r.value == 2
  {
    if soc in {"a10", "a10s", "a13", "a20"} then Some(2)
    else if soc in {"a23", "a31", "a31s"} then Some(1)
    else None
  }

  /** The derived mode. `depth`, `sync` and `vmode` are constants of the output. */
  datatype Mode = Mode(x: int, y: int, depth: int, pclkKhz: Value,
                       le: int, ri: int, up: int, lo: int,
                       hs: int, vs: int, sync: int, vmode: int)

  /** `para[hv] || para[plain]`: the `lcd_hv_*` field when present, else the plain one. */
  function Preferred(para: Para, hv: string, plain: string): (r: Option<Value>)
    ensures hv in para ==> r == Some(para[hv])
    ensures hv !in para && plain in para ==> r == Some(para[plain])
    ensures hv !in para && plain !in para ==> r == None
  {
    if hv in para then Some(para[hv])
    else if plain in para then Some(para[plain])
    else None
  }

  predicate IsInt(v: Option<Value>) {
    v.Some? && v.value.I?
  }

  predicate HasInt(para: Para, key: string) {
    key in para && para[key].I?
  }

  /** The fields the derivation does arithmetic on are integers (Ruby raises on nil
      or a String there); only `lcd_dclk_freq` may also be text, which `* 1000` repeats.
      That text becomes part of the `sprintf` format of the mode line, so it carries no
      `%`, which `sprintf` would reject or rewrite. */
  predicate HasTimingFields(para: Para) {
    && HasInt(para, "lcd_x") && HasInt(para, "lcd_y") && "lcd_dclk_freq" in para
    && HasInt(para, "lcd_hbp") && HasInt(para, "lcd_ht")
    && HasInt(para, "lcd_vbp") && HasInt(para, "lcd_vt")
    && IsInt(Preferred(para, "lcd_hv_hspw", "lcd_hspw"))
    && IsInt(Preferred(para, "lcd_hv_vspw", "lcd_vspw"))
    && (para["lcd_dclk_freq"].S? ==> '%' !in para["lcd_dclk_freq"].s)
  }

  /** Ruby's `String#*`: `n` copies of `s` side by side. */
  function Repeat(s: string, n: nat): (r: string)
    ensures |r| == n * |s|
    ensures n >= 1 ==> r[..|s|] == s
    ensures forall i :: |s| <= i < |r| ==> r[i] == r[i - |s|]
  {
    if n == 0 then "" else s + Repeat(s, n - 1)
  }

  /** Position `i` of the repetition holds character `i mod |s|` of `s`. */
  lemma {:induction false} RepeatIndex(s: string, n: nat)
    requires |s| > 0
    ensures forall i :: 0 <= i < |Repeat(s, n)| ==> Repeat(s, n)[i] == s[i % |s|]
  {
    if n > 0 {
      RepeatIndex(s, n - 1);
      var rest := Repeat(s, n - 1);
      assert Repeat(s, n) == s + rest;
      forall i | 0 <= i < |s| + |rest| ensures (s + rest)[i] == s[i % |s|] {
        PeriodicIndex(s, rest, i);
      }
    }
  }

  /** One more period in front keeps every position on its character of `s`. */
  lemma PeriodicIndex(s: string, rest: string, i: nat)
    requires |s| > 0 && i < |s| + |rest|
    requires forall j :: 0 <= j < |rest| ==> rest[j] == s[j % |s|]
    ensures (s + rest)[i] == s[i % |s|]
  {
    if i >= |s| {
      ModShift(i, |s|);
      assert (s + rest)[i] == rest[i - |s|];
    } else {
      ModUnique(i, |s|, 0, i);
    }
  }

  /** Shifting by one period leaves the position within the period unchanged. */
  lemma ModShift(i: int, k: int)
    requires 0 < k <= i
    ensures (i - k) % k == i % k
  {
    var q, m := i / k, i % k;
    assert i - k == k * (q - 1) + m;
    ModUnique(i - k, k, q - 1, m);
  }

  /** The remainder is the one `m` with `x == k * q + m` and `0 <= m < k`. */
  lemma ModUnique(x: int, k: int, q: int, m: int)
    requires 0 <= m < k && x == k * q + m
    ensures x % k == m
  {
    var q0, m0 := x / k, x % k;
    assert k * (q - q0) == m0 - m;
    if q - q0 >= 1 {
      MulAtLeast(k, q - q0);
    } else if q0 - q >= 1 {
      MulAtLeast(k, q0 - q);
    }
  }

  lemma {:induction false} MulAtLeast(k: int, d: int)
    requires k > 0 && d >= 1
    ensures k * d >= k
    decreases d
  {
    if d > 1 {
      MulAtLeast(k, d - 1);
      assert k * d == k * (d - 1) + k;
    }
  }

  /** Ruby's `v * 1000`: an integer is scaled, a string is repeated. */
  function TimesThousand(v: Value): (r: Value)
    ensures v.I? <==> r.I?
    ensures v.I? ==> r.n == 1000 * v.n
    ensures v.S? ==> |r.s| == 1000 * |v.s|
    ensures v.S? && |v.s| > 0 ==> forall i :: 0 <= i < |r.s| ==> r.s[i] == v.s[i % |v.s|]
  {
    match v
    case I(n) => I(1000 * n)
    case S(s) =>
      if |s| == 0 then S("")
      else RepeatIndex(s, 1000); S(Repeat(s, 1000))
  }

  function Max(a: int, b: int): int {
    if a < b then b else a
  }

  /** `get_config_video_lcd_mode`: the mode, or the unknown family that aborts the run.
      Ruby's floor division agrees with Dafny's `/` here since the divisor is positive. */
  function GetConfigVideoLcdMode(para: Para, soc: string): (r: Result<Mode, string>)
    requires VtDivisor(soc).Some? ==> HasTimingFields(para)
    ensures r.Failure? <==> VtDivisor(soc).None?
    ensures r.Failure? ==> r.error == soc
    ensures r.Success? ==> r.value.hs >= 1 && r.value.vs >= 1
    ensures r.Success? ==> r.value.depth == 18 && r.value.sync == 3 && r.value.vmode == 0
  {
    match VtDivisor(soc)
    case None => Failure(soc)
    case Some(div) =>
      var x := para["lcd_x"].n;
      var y := para["lcd_y"].n;
      var hs := Max(1, Preferred(para, "lcd_hv_hspw", "lcd_hspw").value.n);
      var vs := Max(1, Preferred(para, "lcd_hv_vspw", "lcd_vspw").value.n);
      Success(Mode(x, y, 18, TimesThousand(para["lcd_dclk_freq"]),
                   para["lcd_hbp"].n - hs,
                   para["lcd_ht"].n - x - para["lcd_hbp"].n,
                   para["lcd_vbp"].n - vs,
                   para["lcd_vt"].n / div - y - para["lcd_vbp"].n,
                   hs, vs, 3, 0))
  }

  /** What the derived numbers mean: each sync width is the preferred field raised to
      at least 1; the back porch of the FEX file includes the sync pulse, so left margin
      plus sync is `lcd_hbp`; active width, both margins and the sync pulse add up to
      the line length `lcd_ht`, and likewise vertically up to `lcd_vt` divided by the
      family's divisor; the pixel clock is `lcd_dclk_freq * 1000`: MHz in kHz for an integer, a thousand
      copies for text. Nothing is
      clamped, so a margin may be negative. */
  lemma ModeAccountsForFrame(para: Para, soc: string)
    requires VtDivisor(soc).Some? && HasTimingFields(para)
    ensures var m := GetConfigVideoLcdMode(para, soc).value;
            var hw := Preferred(para, "lcd_hv_hspw", "lcd_hspw").value.n;
            var vw := Preferred(para, "lcd_hv_vspw", "lcd_vspw").value.n;
            && m.hs == (if hw < 1 then 1 else hw) && m.vs == (if vw < 1 then 1 else vw)
            && m.x == para["lcd_x"].n && m.y == para["lcd_y"].n
            && m.pclkKhz == TimesThousand(para["lcd_dclk_freq"])
            && m.le + m.hs == para["lcd_hbp"].n
            && m.up + m.vs == para["lcd_vbp"].n
            && m.x + m.le + m.hs + m.ri == para["lcd_ht"].n
            && m.y + m.up + m.vs + m.lo == para["lcd_vt"].n / VtDivisor(soc).value
  {
  }

  /** Example: an 800x480 panel on an a10 board, whose `lcd_vt` counts two fields,
      derives left/right margins 45/210, upper/lower margins 22/-241, 1-line sync
      pulses, a 33000 kHz clock and 18-bit depth. */
  lemma ModeExample()
    ensures var para := map["lcd_x" := I(800), "lcd_y" := I(480), "lcd_dclk_freq" := I(33),
                             "lcd_hspw" := I(1), "lcd_vspw" := I(1), "lcd_hbp" := I(46),
                             "lcd_ht" := I(1056), "lcd_vbp" := I(23), "lcd_vt" := I(525)];
            GetConfigVideoLcdMode(para, "a10")
              == Success(Mode(800, 480, 18, I(33000), 45, 210, 22, -241, 1, 1, 3, 0))
  {
  }
}

=== FILE: text.dfy ===
/**
 Character classes and number text as the Ruby script sees them: the regular
 expression classes `\s`, `\d` and `[A-Z]`, `String#strip`, `String#to_i` on a
 run of decimal digits and `Integer#to_s`.
 */
module Text {

  /** Ruby's `\s`: space, tab, line feed, vertical tab, form feed, carriage return. */
  predicate IsSpace(c: char) {
    c == ' ' || c == '\t' || c == '\n' || c == '\U{000B}' || c == '\U{000C}' || c == '\r'
  }

  /** The characters `String#strip` removes: `\s` and NUL. */
  predicate IsStripChar(c: char) {
    IsSpace(c) || c == '\0'
  }

  /** Ruby's `\d` (ASCII digits only). */
  predicate IsDigit(c: char) {
    '0' <= c <= '9'
  }

  /** Ruby's `[A-Z]`. */
  predicate IsUpper(c: char) {
    'A' <= c <= 'Z'
  }

  predicate AllDigits(s: string) {
    forall i :: 0 <= i < |s| ==> IsDigit(s[i])
  }

  predicate AllSpace(s: string) {
    forall i :: 0 <= i < |s| ==> IsSpace(s[i])
  }

  predicate NoSpace(s: string) {
    forall i :: 0 <= i < |s| ==> !IsSpace(s[i])
  }

  /** A decimal numeral in canonical form: digits, and no leading zero unless it is "0". */
  predicate IsCanonicalNumeral(s: string) {
    |s| >= 1 && AllDigits(s) && (s[0] == '0' ==> |s| == 1)
  }

  /** Number of consecutive `\s` characters of `s` starting at `from`. */
  function SpaceRun(s: string, from: nat): (n: nat)
    ensures from + n <= |s| || (from > |s| && n == 0)
    ensures forall i :: from <= i < from + n ==> IsSpace(s[i])
    ensures from + n < |s| ==> !IsSpace(s[from + n])
    decreases |s| - from
  {
    if from < |s| && IsSpace(s[from]) then 1 + SpaceRun(s, from + 1) else 0
  }

  /** Number of consecutive non-`\s` characters of `s` starting at `from`. */
  function NonSpaceRun(s: string, from: nat): (n: nat)
    ensures from + n <= |s| || (from > |s| && n == 0)
    ensures forall i :: from <= i < from + n ==> !IsSpace(s[i])
    ensures from + n < |s| ==> IsSpace(s[from + n])
    decreases |s| - from
  {
    if from < |s| && !IsSpace(s[from]) then 1 + NonSpaceRun(s, from + 1) else 0
  }

  /** Number of consecutive digits of `s` starting at `from`. */
  function DigitRun(s: string, from: nat): (n: nat)
    ensures from + n <= |s| || (from > |s| && n == 0)
    ensures forall i :: from <= i < from + n ==> IsDigit(s[i])
    ensures from + n < |s| ==> !IsDigit(s[from + n])
    decreases |s| - from
  {
    if from < |s| && IsDigit(s[from]) then 1 + DigitRun(s, from + 1) else 0
  }

  function DigitValue(c: char): (d: nat)
    requires IsDigit(c)
    ensures d < 10
  {
    (c as int) - ('0' as int)
  }

  function DigitChar(d: nat): (c: char)
    requires d < 10
    ensures IsDigit(c) && DigitValue(c) == d
  {
    (('0' as int) + d) as char
  }

  /** `String#to_i` on a string made only of decimal digits. */
  function DigitsValue(s: string): nat
    requires AllDigits(s)
  {
    if |s| == 0 then 0 else 10 * DigitsValue(s[..|s| - 1]) + DigitValue(s[|s| - 1])
  }

  /** `Integer#to_s` on a non-negative integer: its canonical decimal numeral. */
  function NatToString(n: nat): (s: string)
    ensures IsCanonicalNumeral(s)
    ensures n >= 10 ==> s[0] != '0'
  {
    if n < 10 then [DigitChar(n)] else NatToString(n / 10) + [DigitChar(n % 10)]
  }

  /** `Integer#to_s` (and `%d`) on any integer. */
  function IntToString(i: int): (s: string)
    ensures |s| >= 1
    ensures s[0] == '-' <==> i < 0
    ensures i >= 0 ==> s == NatToString(i)
  {
    if i < 0 then "-" + NatToString(-i) else NatToString(i)
  }

  /** Reading back a printed number gives the number. */
  lemma {:induction false} NatToStringRoundTrip(n: nat)
    ensures DigitsValue(NatToString(n)) == n
  {
    if n >= 10 {
      var s := NatToString(n);
      assert s[..|s| - 1] == NatToString(n / 10);
      NatToStringRoundTrip(n / 10);
    }
  }

  /** Printing the value of a canonical numeral gives the numeral back. */
  lemma {:induction false} CanonicalNumeralRoundTrip(s: string)
    requires IsCanonicalNumeral(s)
    ensures NatToString(DigitsValue(s)) == s
  {
    if |s| > 1 {
      var init := s[..|s| - 1];
      assert IsCanonicalNumeral(init);
      CanonicalNumeralRoundTrip(init);
      NonZeroLeadingValue(init);
      var n := DigitsValue(s);
      assert n / 10 == DigitsValue(init);
      assert n % 10 == DigitValue(s[|s| - 1]);
      assert DigitChar(n % 10) == s[|s| - 1];
      assert s == init + [s[|s| - 1]];
    }
  }

  /** A numeral of two or more digits without a leading zero is at least 10. */
  lemma {:induction false} NonZeroLeadingValue(s: string)
    requires IsCanonicalNumeral(s)
    ensures |s| >= 2 ==> DigitsValue(s) >= 10
    ensures |s| == 1 ==> DigitsValue(s) < 10
    ensures s[0] != '0' ==> DigitsValue(s) >= 1
  {
    if |s| >= 2 {
      var init := s[..|s| - 1];
      assert IsCanonicalNumeral(init) && init[0] == s[0];
      NonZeroLeadingValue(init);
    }
  }

  /** `to_i` ignores leading zeros. */
  lemma {:induction false} LeadingZerosIgnored(zeros: string, s: string)
    requires forall i :: 0 <= i < |zeros| ==> zeros[i] == '0'
    requires AllDigits(s)
    ensures AllDigits(zeros + s)
    ensures DigitsValue(zeros + s) == DigitsValue(s)
  {
    if |s| == 0 {
      assert zeros + s == zeros;
      AllZerosValue(zeros);
    } else {
      var t := zeros + s;
      assert t[..|t| - 1] == zeros + s[..|s| - 1];
      LeadingZerosIgnored(zeros, s[..|s| - 1]);
    }
  }

  lemma {:induction false} AllZerosValue(zeros: string)
    requires forall i :: 0 <= i < |zeros| ==> zeros[i] == '0'
    ensures AllDigits(zeros) && DigitsValue(zeros) == 0
  {
    if |zeros| > 0 {
      AllZerosValue(zeros[..|zeros| - 1]);
    }
  }

  /** Number of characters `String#strip` removes from the front. */
  function StripLead(s: string): (n: nat)
    ensures n <= |s|
    ensures forall i :: 0 <= i < n ==> IsStripChar(s[i])
    ensures n < |s| ==> !IsStripChar(s[n])
  {
    if |s| > 0 && IsStripChar(s[0]) then 1 + StripLead(s[1..]) else 0
  }

  /** Number of characters `String#strip` removes from the back. */
  function StripTrail(s: string): (n: nat)
    ensures n <= |s|
    ensures forall i :: |s| - n <= i < |s| ==> IsStripChar(s[i])
    ensures n < |s| ==> !IsStripChar(s[|s| - n - 1])
  {
    if |s| > 0 && IsStripChar(s[|s| - 1]) then 1 + StripTrail(s[..|s| - 1]) else 0
  }

  predicate IsStripped(s: string) {
    |s| == 0 || (!IsStripChar(s[0]) && !IsStripChar(s[|s| - 1]))
  }

  /** `String#strip`: the longest middle part with no strip character at either end. */
  function Strip(s: string): (r: string)
    ensures IsStripped(r)
    ensures exists a, b ::
              && 0 <= a <= b <= |s| && r == s[a..b]
              && (forall i :: 0 <= i < a ==> IsStripChar(s[i]))
              && (forall i :: b <= i < |s| ==> IsStripChar(s[i]))
  {
    var a := StripLead(s);
    var t := s[a..];
    var b := |s| - StripTrail(t);
    assert t[..|t| - StripTrail(t)] == s[a..b];
    s[a..b]
  }

  /** Stripping is idempotent, and a stripped string is its own strip. */
  lemma StripOfStripped(s: string)
    requires IsStripped(s)
    ensures Strip(s) == s
  {
    if |s| > 0 {
      assert StripLead(s) == 0;
      assert StripTrail(s) == 0;
    }
  }

  /** The non-blank run starting at `from` ends at the first blank. */
  lemma {:induction false} NonSpaceRunEndsAtBlank(s: string, from: nat, m: nat)
    requires from + m < |s| && IsSpace(s[from + m])
    requires forall i :: from <= i < from + m ==> !IsSpace(s[i])
    ensures NonSpaceRun(s, from) == m
    decreases m
  {
    if m > 0 {
      NonSpaceRunEndsAtBlank(s, from + 1, m - 1);
    }
  }

  /** The digit run starting at `from` ends at the first non-digit or at the end. */
  lemma {:induction false} DigitRunEndsAt(s: string, from: nat, m: nat)
    requires from + m <= |s|
    requires forall i :: from <= i < from + m ==> IsDigit(s[i])
    requires from + m == |s| || !IsDigit(s[from + m])
    ensures DigitRun(s, from) == m
    decreases m
  {
    if m > 0 {
      DigitRunEndsAt(s, from + 1, m - 1);
    }
  }
}
